=== FILE: README.md ===
# Display spec collector — a Dafny model

This project models the Display collector of the mobile-specification tool
(`SpecsInfo/DisplaySpecsInfo.py`). The collector runs six device queries and reduces each
answer to one value:

- density and screen size come from the rest of the line after the first `:` and the whitespace that follows it, up to the next line feed (`\n`); a carriage return before it stays in the value;
- brightness, screen-off timeout and rotation are the stripped output;
- the refresh rate comes from `mDefaultPeakRefreshRate=`.

`grepInfo` stores the six values in an ordered record in a fixed order. `generateXLSXReport`
lays the record out on a spreadsheet:

- a header row;
- one row per field with its name, a description and the cleaned value;
- a closing row in the `lastRow` style.

The modules follow that structure:

- `Text`: Python's whitespace set, `str.strip()`, and character removal (the `replaceChars` helper).
- `Patterns`: the two regular expressions, written as scanners. Each has a declarative description of its match, `ColonCapture` and `RateCapture`. For each, the model proves that the scanner returns exactly the value that description admits.
- `Records`: the ordered dict. Assignment replaces the value of an existing key in place and appends a new key at the end.
- `DisplaySpecs`: the six extractors, which take the query's raw output as input, and `grepInfo`.
- `Report`: the sheet, as a map from `(row, column)` to a cell holding a style tag and an optional value. The report is a pure function from sheet and record to sheet. `BlockCell` is a cell-by-cell reference description of what it writes.
- `Scenario`: the collector and the report together, including a worked example. In that example the device reports density 600, size 1080x2280, peak refresh rate 60.0, brightness 120, timeout 15000 and rotation 0.

The model follows the code in two places where a looser reading would differ:

- In `:\s+(?P<x>.*)`, the `\s+` also matches line breaks. A colon at the end of a line therefore takes its value from the next non-blank line, not from an empty rest of the same line. `ColonCapture` states this.
- The table of parameter descriptions has an entry for `<UNKNOWN_KEY>`. The lookup never uses it as a fallback: it falls back to the literal text `Description not available`. The entry happens to hold that same text.

## Model

| member | source | states |
|---|---|---|
| Text.Trim | SpecsInfo/DisplaySpecsInfo.py:53 | `strip()` cuts only whitespace from the two ends and leaves none at either end of the result (`IsTrimOf`, which has exactly one solution by `Text.IsTrimOfUnique`) |
| Text.IsTrimOfUnique | SpecsInfo/DisplaySpecsInfo.py:76 | there is only one way to strip a string, so the declarative description determines the value |
| Text.TrimPadded | SpecsInfo/DisplaySpecsInfo.py:83 | a string with nothing blank at its ends, padded only with whitespace, strips back to itself |
| Text.TrimIdempotent | SpecsInfo/DisplaySpecsInfo.py:53 | stripping a stripped value changes nothing |
| Text.RemoveChars | SpecsInfo/DisplaySpecsInfo.py:131-132 | no listed character survives, and the result is never longer than the input |
| Text.RemoveCharsAppend | SpecsInfo/DisplaySpecsInfo.py:132 | removal works character by character: it distributes over concatenation, so the kept characters stay in order |
| Text.RemoveCharsCounts | SpecsInfo/DisplaySpecsInfo.py:131-132 | every unlisted character keeps its number of occurrences and listed characters occur zero times |
| Text.RemoveCharsFixpoint | SpecsInfo/DisplaySpecsInfo.py:132 | a string is left unchanged if and only if it holds none of the listed characters |
| Text.RemoveCharsIdempotent | SpecsInfo/DisplaySpecsInfo.py:132 | removing twice is the same as removing once |
| Patterns.ColonValue | SpecsInfo/DisplaySpecsInfo.py:36-37 | a value is found if and only if some `:` is followed by whitespace; the value then meets `ColonCapture`: first such colon, whole whitespace run skipped, value up to the next line feed (`\n`), so a carriage return before it stays in the value |
| Patterns.ColonCaptureUnique | SpecsInfo/DisplaySpecsInfo.py:36 | the regular expression admits at most one capture for a given text |
| Patterns.ColonValueExact | SpecsInfo/DisplaySpecsInfo.py:36-40 | the scanner returns `v` if and only if `v` is the capture the regular expression describes |
| Patterns.ColonValueOfLine | SpecsInfo/DisplaySpecsInfo.py:45-49 | for a text `name: value` followed by nothing or by a line break, where `name` has no colon and `value` is non-empty, starts with a non-blank character and holds no line break, the captured value is exactly `value` |
| Patterns.RateValue | SpecsInfo/DisplaySpecsInfo.py:65-67 | a value is found if and only if the key is followed by a rate character, directly or after one space; the value is the first such maximal non-empty run of digits and dots |
| Patterns.RateCaptureUnique | SpecsInfo/DisplaySpecsInfo.py:65 | the refresh-rate expression admits at most one capture |
| Patterns.RateValueExact | SpecsInfo/DisplaySpecsInfo.py:65-67 | the scanner returns `v` if and only if `v` is the capture the refresh-rate expression describes |
| Patterns.RateValueOfLine | SpecsInfo/DisplaySpecsInfo.py:65-67 | for a text made of a prefix with no `m`, then `mDefaultPeakRefreshRate=`, an optional single space, a number, and a rest that does not start with a digit or dot, the number is the captured value |
| Records.Put | SpecsInfo/DisplaySpecsInfo.py:38-39 | assignment keeps the key order, or appends a new key at the end; the key then holds the new value and every other key keeps its value |
| Records.PutKeepsDistinct | SpecsInfo/DisplaySpecsInfo.py:47-48 | assignment keeps the keys unique |
| Records.Fill | SpecsInfo/DisplaySpecsInfo.py:21-27 | a run of `updateDictionary` calls keeps the earlier keys in front, in order, and the keys afterwards are exactly the earlier keys plus the assigned ones |
| Records.FillFresh | SpecsInfo/DisplaySpecsInfo.py:21-27 | assigning distinct new keys appends them, in order, after the existing items |
| Records.FillSets | SpecsInfo/DisplaySpecsInfo.py:21-27 | after a run of assignments to distinct keys each assigned key holds its value, other keys are unchanged, and earlier keys stay in front |
| DisplaySpecs.Collect | SpecsInfo/DisplaySpecsInfo.py:21-28 | `grepInfo` over whatever dict the collector already holds: the earlier keys stay in front, and the keys afterwards are exactly the earlier keys plus the six display fields |
| DisplaySpecs.GetDisplayDensity | SpecsInfo/DisplaySpecsInfo.py:33-40 | the density is present if and only if the output has a colon followed by whitespace, and is then the capture of the colon pattern |
| DisplaySpecs.GetScreenSize | SpecsInfo/DisplaySpecsInfo.py:42-49 | the same as the density, for the size query |
| DisplaySpecs.GetScreenBrightness | SpecsInfo/DisplaySpecsInfo.py:51-56 | the brightness is always present and is the stripped output |
| DisplaySpecs.GetRefreshRate | SpecsInfo/DisplaySpecsInfo.py:58-72 | the output is stripped first; the rate is present if and only if the pattern occurs there, and is then a non-empty run of digits and dots at the capture position |
| DisplaySpecs.GetScreenOffTimeout | SpecsInfo/DisplaySpecsInfo.py:74-79 | the timeout is always present and is the stripped output |
| DisplaySpecs.GetScreenRotation | SpecsInfo/DisplaySpecsInfo.py:81-86 | the rotation is always present and is the stripped output |
| DisplaySpecs.GrepInfo | SpecsInfo/DisplaySpecsInfo.py:21-28 | starting from an empty dict, the record has exactly the six fields, unique and in query order, each holding its extractor's value, present or `None` |
| DisplaySpecs.CollectSetsEveryField | SpecsInfo/DisplaySpecsInfo.py:21-28 | starting from any earlier record, every earlier field stays in front, the six fields hold the new values, and no other field changes |
| DisplaySpecs.MissingValueKeepsKey | SpecsInfo/DisplaySpecsInfo.py:36-71 | for each of the three pattern queries (density, size, refresh rate), the field holds `None` if and only if its pattern found nothing, and all six fields stay in the record either way |
| DisplaySpecs.SettingsValuesTrimmed | SpecsInfo/DisplaySpecsInfo.py:83-85 | the three settings values are stored with nothing blank at either end |
| Report.Lookup | SpecsInfo/DisplaySpecsInfo.py:124-126 | `dict.get(k, default)`: the value stored under a present key, otherwise the default; a result other than the default means the key was present |
| Report.Description | SpecsInfo/DisplaySpecsInfo.py:120-126 | a Description text other than the placeholder belongs to one of the six display fields |
| Report.DescriptionFromTables | SpecsInfo/DisplaySpecsInfo.py:97-126 | the Description text is always one of the sentences of the two tables; the placeholder is the `<UNKNOWN_KEY>` sentence |
| Report.ResultText | SpecsInfo/DisplaySpecsInfo.py:131-133 | the Results text never holds `[`, `'` or `]` |
| Report.ResultTextClean | SpecsInfo/DisplaySpecsInfo.py:131-133 | the Results text has none of the three characters, and a value without them is written unchanged |
| Report.WriteHeader | SpecsInfo/DisplaySpecsInfo.py:89-95 | row 2 holds `Parameters`, `Description`, `Results` in columns 2 to 4 in the header style, and no other cell outside row 2 changes |
| Report.WriteRow | SpecsInfo/DisplaySpecsInfo.py:114-133 | the row holds the key, its description and its cleaned value in the normal style, and nothing outside the row changes |
| Report.WriteRows | SpecsInfo/DisplaySpecsInfo.py:114-118 | entry `j` of the record is written at row `3 + j`, in insertion order, and nothing outside those rows changes |
| Report.CloseBlock | SpecsInfo/DisplaySpecsInfo.py:140-144 | the three closing cells take the `lastRow` style and keep their earlier value |
| Report.Render | SpecsInfo/DisplaySpecsInfo.py:88-144 | the header is at row 2, entry `i` at row `3 + i`, the closing row at `len + 3`, and no cell outside rows 2 to `len + 3` of columns 2 to 4 is touched |
| Report.RotationDescribedByValue | SpecsInfo/DisplaySpecsInfo.py:107-124 | the rotation row is described by its value: 0, 90, 180 and 270 get their sentence, and anything else, `None` included, gets the placeholder |
| Report.FieldDescribedByKey | SpecsInfo/DisplaySpecsInfo.py:97-126 | every other row is described by its key alone; the other five display fields get their sentence, and any other key, `<UNKNOWN_KEY>` included, gets the placeholder; the key table's own `ScreenRotation` sentence is never shown |
| Report.RenderCell | SpecsInfo/DisplaySpecsInfo.py:88-144 | every cell of the block equals the reference description `BlockCell` |
| Report.RenderIdempotent | SpecsInfo/DisplaySpecsInfo.py:88-144 | writing the same record again onto the written sheet changes nothing |
| Report.RenderFreshSheet | SpecsInfo/DisplaySpecsInfo.py:140-144 | on a fresh sheet exactly the block's cells exist, and the closing row's cells hold no value |
| Scenario.DisplayReportLayout | SpecsInfo/DisplaySpecsInfo.py:114-144 | for any device answers, the six field names sit in rows 3 to 8 in query order, row 8 is described by the rotation value, and the closing row is row 9 |
| Scenario.AnsweringDevice | SpecsInfo/DisplaySpecsInfo.py:21-86 | when every query answers in the expected shape (a `name: value` line for density and size, where the name holds no colon and the value is non-empty, starts with a non-blank character and holds no line break; a `mDefaultPeakRefreshRate=` line indented only by whitespace, with an optional space and a non-empty rate made only of digits and dots; and one non-empty value with no whitespace at either end per settings query; each output ending in a line break), the record is exactly the six answers in query order |
| Scenario.SampleReport | SpecsInfo/DisplaySpecsInfo.py:88-144 | in the worked example the rotation row reads the portrait sentence, the brightness result reads 120, and row 9 is the closing row with no value |

## Left out

- Building the device commands and `executeCommandOnDevice` are device I/O. Each extractor takes the query's raw output as a parameter instead.
- The openpyxl layer is not modelled: named style objects, `column_dimensions` widths and `get_column_letter`. A cell carries only a style tag and its value.
- Report.WriteRow: the workbook's `cell.value` setter is not modelled, so the model writes every string unchanged. That setter cuts strings to 32,767 characters. It also raises `IllegalCharacterError` on U+0000–U+0008, U+000B, U+000C and U+000E–U+001F, which stops the report in the middle of a row. Such characters can reach a cell: U+000B and U+000C are whitespace that `strip()` keeps inside a value and `.*` keeps in a density or size capture. The setter belongs to the spreadsheet library, not to this file.
- The debugging `print` calls of the row loop produce console output only.
- `cleanup` does nothing.
- The instance attributes are not modelled. `__init__` sets the six attributes `Display_Density` … `Screen_Rotation` to `None`, and nothing writes them again. The getters write differently named attributes: `DisplayDensity` and `ScreenSize` hold the raw query output, `RefreshRate` the whole stripped line, and the three settings attributes the stripped output. The record is fed from the values the `get*` methods return, which the model keeps.
- `Test/GrepInfo.py` is orchestration and file-system glue and is not part of this model. `Report.RenderFreshSheet` takes the report's sheet to start empty, as a freshly created worksheet does.
- `MobileSpecsInfo`, `ParserUtils` and `FileSystemUtils` are not part of this model. Their helpers are given these assumed meanings:
  - `parseDataViaRegex` is Python's `re.search`: the leftmost match, or nothing.
  - `updateDictionary` is dict assignment.
  - `replaceChars` removes every listed character.
  - `DisplaySpecsInfoDict` is empty when `grepInfo` runs. It is created outside this file, and `setup` runs in between. `DisplaySpecs.GrepInfo` rests on this; `DisplaySpecs.Collect` and `DisplaySpecs.CollectSetsEveryField` cover any other starting dict.
- Patterns.RateValue: `\d` is taken as the ASCII digits only. Python's `\d` on a str pattern also accepts other Unicode decimal digits.
- Report.ResultText: a `None` value is written as the text `None`, that is `str(None)`, on the assumption that `replaceChars` passes `None` through.
- Refresh rate, density and brightness stay strings. No value is read as a number.
- A general regular-expression engine is not modelled. The two patterns are modelled as scanners.

=== FILE: display_specs.dfy ===
/** The Display collector (`DisplaySpecsInfo`): six device queries, each reduced to one value,
    stored in a fixed order under fixed field names. The device call itself is not modelled:
    each extractor receives the raw text the query printed. */
module DisplaySpecs {

  import opened Options
  import opened Text
  import opened Patterns
  import opened Records

  const DensityKey: string := "DisplayDensity"
  const ScreenSizeKey: string := "DisplayScreenSize"
  const BrightnessKey: string := "ScreenBrightness"
  const RefreshRateKey: string := "RefreshRate"
  const ScreenOffTimeoutKey: string := "ScreenOffTimeout"
  const RotationKey: string := "ScreenRotation"

  /** The field names in the order `grepInfo` collects them. */
  const DisplayKeys: seq<string> :=
    [DensityKey, ScreenSizeKey, BrightnessKey, RefreshRateKey, ScreenOffTimeoutKey, RotationKey]

  lemma DisplayKeysDistinct()
    ensures Distinct(DisplayKeys)
  {
  }

  /** Raw output of the six device queries, in collection order. */
  datatype DeviceOutputs = DeviceOutputs(
    density: string,           // window manager `density`
    screenSize: string,        // window manager `size`
    brightness: string,        // settings `screen_brightness`
    refreshRate: string,       // first `dumpsys display` line with `mDefaultPeakRefreshRate`
    screenOffTimeout: string,  // settings `screen_off_timeout`
    rotation: string           // settings `user_rotation`
  )

  /** `getDisplayDensity`: the rest of the line after the first `:` and its whitespace. */
  function GetDisplayDensity(raw: string): (r: Option<string>)
    ensures r.Some? <==> exists k :: ColonAt(raw, k)
    ensures r.Some? ==> exists i, j :: ColonCapture(raw, i, j, r.value)
  {
    ColonValue(raw)
  }

  /** `getScreenSize`: the same pattern as the density. */
  function GetScreenSize(raw: string): (r: Option<string>)
    ensures r.Some? <==> exists k :: ColonAt(raw, k)
    ensures r.Some? ==> exists i, j :: ColonCapture(raw, i, j, r.value)
  {
    ColonValue(raw)
  }

  /** `getScreenBrightness`: the stripped output, always present. */
  function GetScreenBrightness(raw: string): (r: Option<string>)
    ensures r.Some? && IsTrimOf(raw, r.value)
  {
    Some(Trim(raw))
  }

  /** `getRefreshRate`: the output is stripped, then searched for the peak refresh rate. */
  function GetRefreshRate(raw: string): (r: Option<string>)
    ensures r.Some? <==> exists k :: RateAt(Trim(raw), k)
    ensures r.Some? ==> exists i :: RateCapture(Trim(raw), i, r.value)
    ensures r.Some? ==> |r.value| > 0 && forall m :: 0 <= m < |r.value| ==> IsRateChar(r.value[m])
  {
    RateValue(Trim(raw))
  }

  /** `getScreenOffTimeout`: the stripped output, always present. */
  function GetScreenOffTimeout(raw: string): (r: Option<string>)
    ensures r.Some? && IsTrimOf(raw, r.value)
  {
    Some(Trim(raw))
  }

  /** `getScreenRotation`: the stripped output, always present. */
  function GetScreenRotation(raw: string): (r: Option<string>)
    ensures r.Some? && IsTrimOf(raw, r.value)
  {
    Some(Trim(raw))
  }

  /** The six values the `get*` methods return and store, one per query. */
  datatype DisplayValues = DisplayValues(
    density: Option<string>,
    screenSize: Option<string>,
    brightness: Option<string>,
    refreshRate: Option<string>,
    screenOffTimeout: Option<string>,
    rotation: Option<string>
  )

  /** The six `get*` extractors applied to their queries' output. */
  function Extract(out: DeviceOutputs): DisplayValues {
    DisplayValues(
      GetDisplayDensity(out.density), GetScreenSize(out.screenSize),
      GetScreenBrightness(out.brightness), GetRefreshRate(out.refreshRate),
      GetScreenOffTimeout(out.screenOffTimeout), GetScreenRotation(out.rotation))
  }

  /** The values in collection order, matching `DisplayKeys`. */
  function Values(v: DisplayValues): (vs: seq<Option<string>>)
    ensures |vs| == |DisplayKeys|
    ensures vs[0] == v.density && vs[1] == v.screenSize && vs[2] == v.brightness
    ensures vs[3] == v.refreshRate && vs[4] == v.screenOffTimeout && vs[5] == v.rotation
  {
    [v.density, v.screenSize, v.brightness, v.refreshRate, v.screenOffTimeout, v.rotation]
  }

  /** The six `updateDictionary` calls of `grepInfo`, applied to the record the collector
      already holds. */
  function Collect(rec: Record, out: DeviceOutputs): (r: Record)
    ensures Keys(rec) <= Keys(r)
    ensures forall k :: k in Keys(r) <==> k in Keys(rec) || k in DisplayKeys
  {
    Fill(rec, DisplayKeys, Values(Extract(out)))
  }

  /** `grepInfo` when `DisplaySpecsInfoDict` is empty as it runs: exactly the six fields, in
      query order, each holding its extractor's value, whether present or `None`. For any other
      starting dict see `CollectSetsEveryField`. */
  function GrepInfo(out: DeviceOutputs): (r: Record)
    ensures |r| == |DisplayKeys|
    ensures Keys(r) == DisplayKeys
    ensures DistinctKeys(r)
    ensures r[0].1 == GetDisplayDensity(out.density)
    ensures r[1].1 == GetScreenSize(out.screenSize)
    ensures r[2].1 == GetScreenBrightness(out.brightness)
    ensures r[3].1 == GetRefreshRate(out.refreshRate)
    ensures r[4].1 == GetScreenOffTimeout(out.screenOffTimeout)
    ensures r[5].1 == GetScreenRotation(out.rotation)
  {
    FillDisplayKeys(Values(Extract(out)));
    Collect([], out)
  }

  /** The six assignments into an empty dict, for any six values. */
  lemma FillDisplayKeys(vs: seq<Option<string>>)
    requires |vs| == 6
    ensures Fill([], DisplayKeys, vs) == Zip(DisplayKeys, vs)
    ensures DistinctKeys(Zip(DisplayKeys, vs))
  {
    DisplayKeysDistinct();
    FillFresh([], DisplayKeys, vs);
    assert [] + Zip(DisplayKeys, vs) == Zip(DisplayKeys, vs);
    ZipDistinct(DisplayKeys, vs);
  }

  /** Whatever the collector held before, `grepInfo` keeps every earlier field where it was,
      each of the six fields then holds the value just extracted, and no other field changes. */
  lemma CollectSetsEveryField(rec: Record, out: DeviceOutputs)
    ensures Keys(rec) <= Keys(Collect(rec, out))
    ensures forall i :: 0 <= i < 6 ==> Get(Collect(rec, out), DisplayKeys[i]) == Some(Values(Extract(out))[i])
    ensures forall k :: k !in DisplayKeys ==> Get(Collect(rec, out), k) == Get(rec, k)
  {
    DisplayKeysDistinct();
    FillSets(rec, DisplayKeys, Values(Extract(out)));
  }

  /** A pattern query that finds nothing still leaves its field in the record, holding `None`,
      and a field holds `None` only when its pattern found nothing. */
  lemma MissingValueKeepsKey(out: DeviceOutputs)
    ensures GrepInfo(out)[0] == (DensityKey, None) <==> !exists k :: ColonAt(out.density, k)
    ensures GrepInfo(out)[1] == (ScreenSizeKey, None) <==> !exists k :: ColonAt(out.screenSize, k)
    ensures GrepInfo(out)[3] == (RefreshRateKey, None) <==> !exists k :: RateAt(Trim(out.refreshRate), k)
    ensures Keys(GrepInfo(out)) == DisplayKeys
  {
    var r := GrepInfo(out);
    assert r[0].0 == Keys(r)[0] && r[1].0 == Keys(r)[1] && r[3].0 == Keys(r)[3];
  }

  /** The three settings values are stored stripped: nothing blank at either end. */
  lemma SettingsValuesTrimmed(out: DeviceOutputs)
    ensures GrepInfo(out)[2].1.Some? && Trimmed(GrepInfo(out)[2].1.value)
    ensures GrepInfo(out)[4].1.Some? && Trimmed(GrepInfo(out)[4].1.value)
    ensures GrepInfo(out)[5].1.Some? && Trimmed(GrepInfo(out)[5].1.value)
  {
  }

}

=== FILE: options.dfy ===
/** The optional value used wherever the collector may find nothing:
    a regex miss, a dictionary lookup of a missing key, Python's `None`. */
module Options {

  datatype Option<+T> = None | Some(value: T)

}

=== FILE: patterns.dfy ===
/** Hand-written scanners for the two regular expressions the Display collector applies
    with `re.search`: `:\s+(?P<v>.*)` (density, screen size) and
    `mDefaultPeakRefreshRate= ?(?P<refresh_rate>[\d\.]+)` (refresh rate).
    Each scanner is paired with a declarative description of the leftmost match,
    and a lemma shows the two agree on every input. */
module Patterns {

  import opened Options
  import opened Text

  // ---------------------------------------------------------------------------
  // `:\s+(?P<v>.*)`
  // ---------------------------------------------------------------------------

  /** A match of `:\s+` can start at `i`. */
  predicate ColonAt(s: string, i: int) {
    0 <= i && i + 1 < |s| && s[i] == ':' && IsSpace(s[i + 1])
  }

  /** What `re.search` captures: `i` is the leftmost colon followed by whitespace, the greedy
      `\s+` runs to `j` (the end, or a non-blank character), and `v` is the greedy `.*`
      from `j`: every character up to the next line feed or the end of the text. */
  predicate ColonCapture(s: string, i: int, j: int, v: string) {
    && ColonAt(s, i)
    && (forall k :: 0 <= k < i ==> !ColonAt(s, k))
    && i + 1 < j <= |s|
    && AllSpace(s[i + 1..j])
    && (j == |s| || !IsSpace(s[j]))
    && j + |v| <= |s|
    && v == s[j..j + |v|]
    && '\n' !in v
    && (j + |v| == |s| || s[j + |v|] == '\n')
  }

  function FirstColon(s: string, from: nat): (r: Option<nat>)
    requires from <= |s|
    ensures r.None? ==> forall k :: from <= k ==> !ColonAt(s, k)
    ensures r.Some? ==> from <= r.value && ColonAt(s, r.value)
    ensures r.Some? ==> forall k :: from <= k < r.value ==> !ColonAt(s, k)
    decreases |s| - from
  {
    if from + 1 >= |s| then None
    else if ColonAt(s, from) then Some(from)
    else FirstColon(s, from + 1)
  }

  /** End of the maximal whitespace run starting at `j`. */
  function SkipSpaces(s: string, j: nat): (k: nat)
    requires j <= |s|
    ensures j <= k <= |s|
    ensures forall m :: j <= m < k ==> IsSpace(s[m])
    ensures k == |s| || !IsSpace(s[k])
    decreases |s| - j
  {
    if j < |s| && IsSpace(s[j]) then SkipSpaces(s, j + 1) else j
  }

  /** Position of the first line feed at or after `j`, or the end of the text. */
  function LineEnd(s: string, j: nat): (k: nat)
    requires j <= |s|
    ensures j <= k <= |s|
    ensures forall m :: j <= m < k ==> s[m] != '\n'
    ensures k == |s| || s[k] == '\n'
    decreases |s| - j
  {
    if j < |s| && s[j] != '\n' then LineEnd(s, j + 1) else j
  }

  /** `re.search(r':\s+(?P<v>.*)', s)` followed by `.get('v')`. */
  function ColonValue(s: string): (r: Option<string>)
    ensures r.Some? <==> exists k :: ColonAt(s, k)
    ensures r.Some? ==> exists i, j :: ColonCapture(s, i, j, r.value)
  {
    match FirstColon(s, 0)
    case None => None
    case Some(i) =>
      var j := SkipSpaces(s, i + 1);
      var k := LineEnd(s, j);
      var v := s[j..k];
      assert ColonCapture(s, i, j, v) by {
        SpaceSlice(s, i + 1, j);
        assert forall m :: 0 <= m < |v| ==> v[m] == s[j + m];
      }
      Some(v)
  }

  /** The capture is determined by the text: there is only one. */
  lemma ColonCaptureUnique(s: string, i1: int, j1: int, v1: string, i2: int, j2: int, v2: string)
    requires ColonCapture(s, i1, j1, v1) && ColonCapture(s, i2, j2, v2)
    ensures v1 == v2
  {
    assert i1 == i2;
    SpaceRunEnd(s, i1 + 1, j1, j2);
    LineRunEnd(s, j1, v1, v2);
  }

  /** Whitespace of a slice, stated position by position. */
  lemma SpaceSlice(s: string, a: int, b: int)
    requires 0 <= a <= b <= |s|
    ensures AllSpace(s[a..b]) <==> forall m :: a <= m < b ==> IsSpace(s[m])
  {
    assert forall m :: a <= m < b ==> s[a..b][m - a] == s[m];
  }

  lemma SpaceRunEnd(s: string, a: int, j1: int, j2: int)
    requires 0 <= a <= j1 <= |s| && a <= j2 <= |s|
    requires AllSpace(s[a..j1]) && (j1 == |s| || !IsSpace(s[j1]))
    requires AllSpace(s[a..j2]) && (j2 == |s| || !IsSpace(s[j2]))
    ensures j1 == j2
  {
    SpaceSlice(s, a, j1);
    SpaceSlice(s, a, j2);
  }

  lemma LineRunEnd(s: string, j: int, v1: string, v2: string)
    requires 0 <= j && j + |v1| <= |s| && v1 == s[j..j + |v1|] && '\n' !in v1
    requires j + |v1| == |s| || s[j + |v1|] == '\n'
    requires j + |v2| <= |s| && v2 == s[j..j + |v2|] && '\n' !in v2
    requires j + |v2| == |s| || s[j + |v2|] == '\n'
    ensures v1 == v2
  {
    assert forall m :: j <= m < j + |v1| ==> s[m] == v1[m - j];
    assert forall m :: j <= m < j + |v2| ==> s[m] == v2[m - j];
  }

  /** The scanner returns exactly the value the regular expression captures. */
  lemma ColonValueExact(s: string, v: string)
    ensures ColonValue(s) == Some(v) <==> exists i, j :: ColonCapture(s, i, j, v)
  {
    if exists i, j :: ColonCapture(s, i, j, v) {
      var i, j :| ColonCapture(s, i, j, v);
      assert ColonValue(s).Some?;
      var i', j' :| ColonCapture(s, i', j', ColonValue(s).value);
      ColonCaptureUnique(s, i, j, v, i', j', ColonValue(s).value);
    }
  }

  /** A `label: value` line reads back as its value, provided the name has no colon and the
      value starts with a non-blank character and stays on its line. */
  lemma ColonValueOfLine(name: string, v: string, rest: string)
    requires forall k :: 0 <= k < |name| ==> name[k] != ':'
    requires |v| > 0 && !IsSpace(v[0]) && '\n' !in v
    requires |rest| == 0 || rest[0] == '\n'
    ensures ColonValue(name + ": " + v + rest) == Some(v)
  {
    var s := name + ": " + v + rest;
    var i := |name|;
    assert s[i] == ':' && s[i + 1] == ' ' && s[i + 2] == v[0];
    assert forall k :: 0 <= k < i ==> s[k] == name[k];
    assert s[i + 1..i + 2] == " ";
    assert s[i + 2..i + 2 + |v|] == v;
    if |rest| > 0 {
      assert s[i + 2 + |v|] == rest[0];
    }
    assert ColonCapture(s, i, i + 2, v);
    ColonValueExact(s, v);
  }

  // ---------------------------------------------------------------------------
  // `mDefaultPeakRefreshRate= ?(?P<refresh_rate>[\d\.]+)`
  // ---------------------------------------------------------------------------

  const PeakKey: string := "mDefaultPeakRefreshRate="

  /** The class `[\d\.]`: a decimal digit or a dot. */
  predicate IsRateChar(c: char) {
    ('0' <= c <= '9') || c == '.'
  }

  predicate KeyAt(s: string, i: int) {
    0 <= i && i + |PeakKey| <= |s| && s[i..i + |PeakKey|] == PeakKey
  }

  /** Where the value starts: the greedy ` ?` takes one space when there is one.
      Giving the space back never helps, since a space is not in `[\d\.]`. */
  function RateStart(s: string, i: int): nat
    requires KeyAt(s, i)
  {
    var p := i + |PeakKey|;
    if p < |s| && s[p] == ' ' then p + 1 else p
  }

  /** A match of the whole pattern can start at `i`. */
  predicate RateAt(s: string, i: int) {
    KeyAt(s, i) && RateStart(s, i) < |s| && IsRateChar(s[RateStart(s, i)])
  }

  /** What `re.search` captures: `i` is the leftmost place the pattern matches and `v` is the
      longest run of digits and dots after the key and the optional space. */
  predicate RateCapture(s: string, i: int, v: string) {
    && RateAt(s, i)
    && (forall k :: 0 <= k < i ==> !RateAt(s, k))
    && RateStart(s, i) + |v| <= |s|
    && v == s[RateStart(s, i)..RateStart(s, i) + |v|]
    && |v| > 0
    && (forall m :: 0 <= m < |v| ==> IsRateChar(v[m]))
    && (RateStart(s, i) + |v| == |s| || !IsRateChar(s[RateStart(s, i) + |v|]))
  }

  function FirstRate(s: string, from: nat): (r: Option<nat>)
    requires from <= |s|
    ensures r.None? ==> forall k :: from <= k ==> !RateAt(s, k)
    ensures r.Some? ==> from <= r.value && RateAt(s, r.value)
    ensures r.Some? ==> forall k :: from <= k < r.value ==> !RateAt(s, k)
    decreases |s| - from
  {
    if from + |PeakKey| >= |s| then None
    else if RateAt(s, from) then Some(from)
    else FirstRate(s, from + 1)
  }

  /** End of the maximal run of digits and dots starting at `j`. */
  function RateRunEnd(s: string, j: nat): (k: nat)
    requires j <= |s|
    ensures j <= k <= |s|
    ensures forall m :: j <= m < k ==> IsRateChar(s[m])
    ensures k == |s| || !IsRateChar(s[k])
    decreases |s| - j
  {
    if j < |s| && IsRateChar(s[j]) then RateRunEnd(s, j + 1) else j
  }

  /** `re.search(r'mDefaultPeakRefreshRate= ?(?P<refresh_rate>[\d\.]+)', s)` followed by
      `.get('refresh_rate')`. */
  function RateValue(s: string): (r: Option<string>)
    ensures r.Some? <==> exists k :: RateAt(s, k)
    ensures r.Some? ==> exists i :: RateCapture(s, i, r.value)
    ensures r.Some? ==> |r.value| > 0 && forall m :: 0 <= m < |r.value| ==> IsRateChar(r.value[m])
  {
    match FirstRate(s, 0)
    case None => None
    case Some(i) =>
      var st := RateStart(s, i);
      var k := RateRunEnd(s, st);
      var v := s[st..k];
      assert RateCapture(s, i, v);
      Some(v)
  }

  lemma RateCaptureUnique(s: string, i1: int, v1: string, i2: int, v2: string)
    requires RateCapture(s, i1, v1) && RateCapture(s, i2, v2)
    ensures v1 == v2
  {
    assert i1 == i2;
    var st := RateStart(s, i1);
    assert forall m :: st <= m < st + |v1| ==> s[m] == v1[m - st];
    assert forall m :: st <= m < st + |v2| ==> s[m] == v2[m - st];
  }

  /** The scanner returns exactly the value the regular expression captures. */
  lemma RateValueExact(s: string, v: string)
    ensures RateValue(s) == Some(v) <==> exists i :: RateCapture(s, i, v)
  {
    if exists i :: RateCapture(s, i, v) {
      var i :| RateCapture(s, i, v);
      var i' :| RateCapture(s, i', RateValue(s).value);
      RateCaptureUnique(s, i, v, i', RateValue(s).value);
    }
  }

  /** A line carrying the key, an optional space and a rate reads back as that rate, provided
      no `m` comes before the key and the rate is not followed by another digit or dot. */
  lemma RateValueOfLine(prefix: string, space: string, v: string, rest: string)
    requires forall k :: 0 <= k < |prefix| ==> prefix[k] != 'm'
    requires space == "" || space == " "
    requires |v| > 0 && forall m :: 0 <= m < |v| ==> IsRateChar(v[m])
    requires |rest| == 0 || !IsRateChar(rest[0])
    ensures RateValue(prefix + PeakKey + space + v + rest) == Some(v)
  {
    var s := prefix + PeakKey + space + v + rest;
    var i := |prefix|;
    var st := i + |PeakKey| + |space|;
    assert s[i..i + |PeakKey|] == PeakKey;
    assert s[st..st + |v|] == v;
    assert s[st] == v[0];
    if space == " " {
      assert s[i + |PeakKey|] == ' ';
    } else {
      assert s[i + |PeakKey|] == v[0];
    }
    assert RateStart(s, i) == st;
    forall k | 0 <= k < i
      ensures !RateAt(s, k)
    {
      assert s[k] == prefix[k];
      KeyAtHead(s, k);
    }
    if |rest| > 0 {
      assert s[st + |v|] == rest[0];
    }
    assert RateCapture(s, i, v);
    RateValueExact(s, v);
  }

  /** The key begins with `m`. */
  lemma KeyAtHead(s: string, k: int)
    ensures KeyAt(s, k) ==> s[k] == 'm'
  {
    if KeyAt(s, k) {
      assert s[k..k + |PeakKey|][0] == s[k];
    }
  }

}

=== FILE: records.dfy ===
/** The spec record: a Python dict from field name to value, kept as the sequence of its
    items in insertion order (the order `dict.items()` and the JSON file show). */
module Records {

  import opened Options

  /** A stored value is a string or Python's `None`. */
  type Record = seq<(string, Option<string>)>

  function Keys(rec: Record): (ks: seq<string>)
    ensures |ks| == |rec|
    ensures forall i :: 0 <= i < |rec| ==> ks[i] == rec[i].0
  {
    seq(|rec|, i requires 0 <= i < |rec| => rec[i].0)
  }

  /** Python dict keys are unique. */
  predicate DistinctKeys(rec: Record) {
    forall i, j :: 0 <= i < j < |rec| ==> rec[i].0 != rec[j].0
  }

  /** Position of the first item with key `k`. */
  function IndexOf(rec: Record, k: string): (r: Option<nat>)
    ensures r.Some? ==> r.value < |rec| && rec[r.value].0 == k
    ensures r.Some? ==> forall j :: 0 <= j < r.value ==> rec[j].0 != k
    ensures r.None? <==> k !in Keys(rec)
  {
    if rec == [] then None
    else if rec[0].0 == k then Some(0)
    else
      var t := IndexOf(rec[1..], k);
      var r := if t.None? then None else Some(t.value + 1);
      IndexOfStep(rec, k, t, r);
      r
  }

  /** A miss at the head: the position in the tail, shifted by one. */
  lemma IndexOfStep(rec: Record, k: string, t: Option<nat>, r: Option<nat>)
    requires |rec| > 0 && rec[0].0 != k
    requires t.Some? ==> t.value < |rec| - 1 && rec[1..][t.value].0 == k
    requires t.Some? ==> forall j :: 0 <= j < t.value ==> rec[1..][j].0 != k
    requires t.None? <==> k !in Keys(rec[1..])
    requires r == if t.None? then None else Some(t.value + 1)
    ensures r.Some? ==> r.value < |rec| && rec[r.value].0 == k
    ensures r.Some? ==> forall j :: 0 <= j < r.value ==> rec[j].0 != k
    ensures r.None? <==> k !in Keys(rec)
  {
    KeysCons(rec);
    if t.Some? {
      assert rec[r.value] == rec[1..][t.value];
      forall j | 0 < j < r.value
        ensures rec[j].0 != k
      {
        assert rec[j] == rec[1..][j - 1];
      }
    }
  }

  lemma KeysCons(rec: Record)
    requires |rec| > 0
    ensures Keys(rec) == [rec[0].0] + Keys(rec[1..])
  {
  }

  /** `dict.get(k)`: the value stored under `k`, or `None` when `k` is not a key. */
  function Get(rec: Record, k: string): Option<Option<string>> {
    match IndexOf(rec, k)
    case None => None
    case Some(i) => Some(rec[i].1)
  }

  /** `IndexOf` finds the first occurrence, and nothing else. */
  lemma IndexOfFirst(rec: Record, k: string, i: nat)
    requires i < |rec| && rec[i].0 == k
    requires forall j :: 0 <= j < i ==> rec[j].0 != k
    ensures IndexOf(rec, k) == Some(i)
  {
    assert Keys(rec)[i] == k;
  }

  /** `dict[k] = v` (the `updateDictionary` helper): an existing key keeps its place and takes
      the new value; a new key goes to the end. */
  function Put(rec: Record, k: string, v: Option<string>): (r: Record)
    ensures Keys(r) == if k in Keys(rec) then Keys(rec) else Keys(rec) + [k]
    ensures k !in Keys(rec) ==> r == rec + [(k, v)]
    ensures Get(r, k) == Some(v)
    ensures forall k' :: k' != k ==> Get(r, k') == Get(rec, k')
  {
    var r := match IndexOf(rec, k)
      case Some(i) => rec[i := (k, v)]
      case None => rec + [(k, v)];
    PutLookup(rec, k, v, r);
    r
  }

  lemma PutLookup(rec: Record, k: string, v: Option<string>, r: Record)
    requires r == match IndexOf(rec, k)
      case Some(i) => rec[i := (k, v)]
      case None => rec + [(k, v)]
    ensures Get(r, k) == Some(v)
    ensures forall k' :: k' != k ==> Get(r, k') == Get(rec, k')
  {
    var i := if IndexOf(rec, k).Some? then IndexOf(rec, k).value else |rec|;
    IndexOfFirst(r, k, i);
    forall k' | k' != k
      ensures Get(r, k') == Get(rec, k')
    {
      var o := IndexOf(rec, k');
      if o.Some? {
        IndexOfFirst(r, k', o.value);
      } else {
        assert k' !in Keys(r);
      }
    }
  }

  /** Assignment keeps a record a valid dict. */
  lemma PutKeepsDistinct(rec: Record, k: string, v: Option<string>)
    requires DistinctKeys(rec)
    ensures DistinctKeys(Put(rec, k, v))
  {
    var r := Put(rec, k, v);
    assert forall i :: 0 <= i < |r| ==> r[i].0 == Keys(r)[i];
    assert forall i :: 0 <= i < |rec| ==> rec[i].0 == Keys(rec)[i];
  }

  predicate Distinct(ks: seq<string>) {
    forall i, j :: 0 <= i < j < |ks| ==> ks[i] != ks[j]
  }

  /** Pairs each key with its value. */
  function Zip(ks: seq<string>, vs: seq<Option<string>>): (r: Record)
    requires |ks| == |vs|
    ensures |r| == |ks| && Keys(r) == ks
    ensures forall i :: 0 <= i < |r| ==> r[i] == (ks[i], vs[i])
  {
    seq(|ks|, i requires 0 <= i < |ks| => (ks[i], vs[i]))
  }

  /** A run of assignments `rec[ks[0]] = vs[0]`, `rec[ks[1]] = vs[1]`, ... in that order. */
  function Fill(rec: Record, ks: seq<string>, vs: seq<Option<string>>): (r: Record)
    requires |ks| == |vs|
    ensures Keys(rec) <= Keys(r)
    ensures forall k :: k in Keys(r) <==> k in Keys(rec) || k in ks
    decreases |ks|
  {
    if ks == [] then rec
    else
      var p := Put(rec, ks[0], vs[0]);
      var r := Fill(p, ks[1..], vs[1..]);
      KeysGrow(Keys(rec), Keys(p), Keys(r), ks);
      r
  }

  /** One assignment followed by the rest of the run: the key lists only grow, and gain
      exactly the assigned keys. */
  lemma KeysGrow(a: seq<string>, p: seq<string>, r: seq<string>, ks: seq<string>)
    requires |ks| > 0 && p == if ks[0] in a then a else a + [ks[0]]
    requires p <= r && forall k :: k in r <==> k in p || k in ks[1..]
    ensures a <= r
    ensures forall k :: k in r <==> k in a || k in ks
  {
    assert ks == [ks[0]] + ks[1..];
  }

  /** Assigning distinct new keys appends them, in order, after what was there. */
  lemma {:induction false} FillFresh(rec: Record, ks: seq<string>, vs: seq<Option<string>>)
    requires |ks| == |vs| && Distinct(ks)
    requires forall k :: k in ks ==> k !in Keys(rec)
    ensures Fill(rec, ks, vs) == rec + Zip(ks, vs)
    decreases |ks|
  {
    if ks != [] {
      var rec' := Put(rec, ks[0], vs[0]);
      FreshStep(rec, ks, vs[0]);
      FillFresh(rec', ks[1..], vs[1..]);
      ZipAfter(rec, ks, vs);
    }
  }

  /** The first assignment of a run of fresh keys appends, and leaves the rest fresh. */
  lemma FreshStep(rec: Record, ks: seq<string>, v: Option<string>)
    requires |ks| > 0 && Distinct(ks)
    requires forall k :: k in ks ==> k !in Keys(rec)
    ensures Put(rec, ks[0], v) == rec + [(ks[0], v)]
    ensures Distinct(ks[1..])
    ensures forall k :: k in ks[1..] ==> k !in Keys(Put(rec, ks[0], v))
  {
    var rec' := Put(rec, ks[0], v);
    assert Keys(rec') == Keys(rec) + [ks[0]];
    forall k | k in ks[1..]
      ensures k !in Keys(rec')
    {
      var j :| 0 <= j < |ks[1..]| && ks[1..][j] == k;
      assert ks[j + 1] == k;
    }
  }

  /** Appending the first pair, then the pairs of the rest, appends all the pairs. */
  lemma ZipAfter(rec: Record, ks: seq<string>, vs: seq<Option<string>>)
    requires |ks| == |vs| && |ks| > 0
    ensures (rec + [(ks[0], vs[0])]) + Zip(ks[1..], vs[1..]) == rec + Zip(ks, vs)
  {
    var tail := Zip(ks[1..], vs[1..]);
    assert Zip(ks, vs) == [(ks[0], vs[0])] + tail;
    assert rec + ([(ks[0], vs[0])] + tail) == (rec + [(ks[0], vs[0])]) + tail;
  }

  /** Distinct keys make a valid dict. */
  lemma ZipDistinct(ks: seq<string>, vs: seq<Option<string>>)
    requires |ks| == |vs| && Distinct(ks)
    ensures DistinctKeys(Zip(ks, vs))
  {
  }

  /** After the assignments each assigned key holds its value, every other key keeps its
      value, and the keys already there keep their order at the front. */
  lemma {:induction false} FillSets(rec: Record, ks: seq<string>, vs: seq<Option<string>>)
    requires |ks| == |vs| && Distinct(ks)
    ensures Keys(rec) <= Keys(Fill(rec, ks, vs))
    ensures forall i :: 0 <= i < |ks| ==> Get(Fill(rec, ks, vs), ks[i]) == Some(vs[i])
    ensures forall k :: k !in ks ==> Get(Fill(rec, ks, vs), k) == Get(rec, k)
    decreases |ks|
  {
    if ks != [] {
      var rec' := Put(rec, ks[0], vs[0]);
      FillSets(rec', ks[1..], vs[1..]);
      var r := Fill(rec', ks[1..], vs[1..]);
      assert Keys(rec) <= Keys(rec');
      forall i | 0 <= i < |ks|
        ensures Get(r, ks[i]) == Some(vs[i])
      {
        if i == 0 {
          assert ks[0] !in ks[1..];
        } else {
          assert ks[1..][i - 1] == ks[i];
        }
      }
      forall k | k !in ks
        ensures Get(r, k) == Get(rec, k)
      {
        assert k !in ks[1..] && k != ks[0];
      }
    }
  }

}

=== FILE: report.dfy ===
/** `generateXLSXReport` of the Display collector: the record becomes a block of cells on a
    worksheet. A sheet is a map from (row, column), both 1-based as in openpyxl, to the cells
    that exist; only the style tag and the value of a cell are kept. */
module Report {

  import opened Options
  import opened Text
  import opened Records
  import opened DisplaySpecs

  /** The named styles the workbook provides; `Plain` is any cell the report did not style. */
  datatype Style = Plain | HeaderRow | NormalRow | LastRow

  datatype Cell = Cell(style: Style, value: Option<string>)

  type Sheet = map<(int, int), Cell>

  const HeaderRowIndex: int := 2
  const FirstDataRow: int := 3
  /** Columns used by the block: Parameters, Description, Results. */
  const ParamColumn: int := 2
  const DescColumn: int := 3
  const ResultColumn: int := 4

  const Headers: seq<string> := ["Parameters", "Description", "Results"]

  const NotAvailable: string := "Description not available"
  const UnknownKey: string := "<UNKNOWN_KEY>"

  /** Field descriptions, looked up by field name. */
  const ParamDescriptions: map<string, string> := map[
    DensityKey := "The density of the display, measured in DPI",
    ScreenSizeKey := "The size of the screen, typically measured diagonally in inches",
    BrightnessKey := "The current screen brightness level, measured on a scale from 1 to 255",
    RefreshRateKey := " This is the maximum rate at which the screen can refresh its content, measured in Hertz (Hz)",
    ScreenOffTimeoutKey := "The duration before the screen turns off automatically, measured in milliseconds",
    RotationKey := "The current orientation of the screen, represented as degrees (0, 90, 180, 270)",
    UnknownKey := NotAvailable
  ]

  /** Rotation descriptions, looked up by the stored value. */
  const RotationDescriptions: map<string, string> := map[
    "0" := "The screen is in its default portrait orientation.",
    "90" := "The screen is rotated 90 degrees clockwise, in landscape mode.",
    "180" := "The screen is upside down, in reverse portrait mode.",
    "270" := "The screen is rotated 90 degrees counterclockwise, in reverse landscape mode."
  ]

  /** The characters stripped from a result before it is written. */
  const StrayChars: seq<char> := ['[', '\'', ']']

  /** Python's `dict.get(k, default)`. */
  function Lookup(m: map<string, string>, k: string, default: string): (r: string)
    ensures r in m.Values || r == default
    ensures k in m ==> r == m[k]
    ensures r != default ==> k in m
  {
    if k in m then m[k] else default
  }

  /** The Description cell's text: the rotation field is described by its value, every other
      field by its name. A `None` value is never a key of the rotation table. */
  function Description(key: string, value: Option<string>): (r: string)
    ensures r != NotAvailable ==> key in DisplayKeys
  {
    if key == RotationKey then
      match value
      case Some(v) => Lookup(RotationDescriptions, v, NotAvailable)
      case None => NotAvailable
    else Lookup(ParamDescriptions, key, NotAvailable)
  }

  /** The Description text always comes from one of the two tables: the placeholder is the
      `<UNKNOWN_KEY>` sentence. */
  lemma DescriptionFromTables(key: string, value: Option<string>)
    ensures Description(key, value) in ParamDescriptions.Values + RotationDescriptions.Values
  {
    assert ParamDescriptions[UnknownKey] == NotAvailable;
  }

  /** The Results cell's text: `str(replaceChars(value, ["[", "'", "]"]))`. A `None` value
      passes through the helper and prints as `None`. */
  function ResultText(value: Option<string>): (r: string)
    ensures forall k :: 0 <= k < |r| ==> r[k] !in StrayChars
  {
    match value
    case Some(v) => RemoveChars(v, StrayChars)
    case None => "None"
  }

  /** The cell's value, or `None` when the cell does not exist yet. */
  function ValueAt(ws: Sheet, p: (int, int)): Option<string> {
    if p in ws then ws[p].value else None
  }

  /** The three columns of the block. */
  predicate InColumns(p: (int, int)) {
    ParamColumn <= p.1 <= ResultColumn
  }

  /** `a` and `b` hold the same cells everywhere except in rows `lo..hi` of the block's columns. */
  ghost predicate AgreeOutside(a: Sheet, b: Sheet, lo: int, hi: int) {
    forall p: (int, int) :: !(lo <= p.0 <= hi && InColumns(p)) ==>
      (p in a <==> p in b) && (p in a ==> a[p] == b[p])
  }

  /** Cell `p` exists and is `cell`. */
  predicate Holds(ws: Sheet, p: (int, int), cell: Cell) {
    p in ws && ws[p] == cell
  }

  /** Row `row` holds the entry `(key, value)`. */
  predicate RowHolds(ws: Sheet, row: int, entry: (string, Option<string>)) {
    && Holds(ws, (row, ParamColumn), Cell(NormalRow, Some(entry.0)))
    && Holds(ws, (row, DescColumn), Cell(NormalRow, Some(Description(entry.0, entry.1))))
    && Holds(ws, (row, ResultColumn), Cell(NormalRow, Some(ResultText(entry.1))))
  }

  /** Row 2 holds the three headers in the header style. */
  predicate HeaderHolds(ws: Sheet) {
    && Holds(ws, (HeaderRowIndex, ParamColumn), Cell(HeaderRow, Some(Headers[0])))
    && Holds(ws, (HeaderRowIndex, DescColumn), Cell(HeaderRow, Some(Headers[1])))
    && Holds(ws, (HeaderRowIndex, ResultColumn), Cell(HeaderRow, Some(Headers[2])))
  }

  /** The header loop. */
  function WriteHeader(ws: Sheet): (r: Sheet)
    ensures HeaderHolds(r)
    ensures AgreeOutside(ws, r, HeaderRowIndex, HeaderRowIndex)
  {
    ws[(HeaderRowIndex, ParamColumn) := Cell(HeaderRow, Some(Headers[0]))]
      [(HeaderRowIndex, DescColumn) := Cell(HeaderRow, Some(Headers[1]))]
      [(HeaderRowIndex, ResultColumn) := Cell(HeaderRow, Some(Headers[2]))]
  }

  /** One pass of the row loop: the field's name, description and cleaned value. */
  function WriteRow(ws: Sheet, row: int, entry: (string, Option<string>)): (r: Sheet)
    ensures RowHolds(r, row, entry)
    ensures AgreeOutside(ws, r, row, row)
  {
    ws[(row, ParamColumn) := Cell(NormalRow, Some(entry.0))]
      [(row, DescColumn) := Cell(NormalRow, Some(Description(entry.0, entry.1)))]
      [(row, ResultColumn) := Cell(NormalRow, Some(ResultText(entry.1)))]
  }

  /** The row loop from entry `i` on: entry `j` goes to row `3 + j`. */
  function WriteRows(ws: Sheet, rec: Record, i: nat): (r: Sheet)
    requires i <= |rec|
    ensures forall j :: i <= j < |rec| ==> RowHolds(r, FirstDataRow + j, rec[j])
    ensures AgreeOutside(ws, r, FirstDataRow + i, FirstDataRow + |rec| - 1)
    decreases |rec| - i
  {
    if i == |rec| then ws
    else
      var w := WriteRow(ws, FirstDataRow + i, rec[i]);
      var r := WriteRows(w, rec, i + 1);
      RowsStep(ws, w, r, rec, i);
      r
  }

  /** One pass of the row loop followed by the rest of it. */
  lemma RowsStep(ws: Sheet, w: Sheet, r: Sheet, rec: Record, i: nat)
    requires i < |rec|
    requires RowHolds(w, FirstDataRow + i, rec[i]) && AgreeOutside(ws, w, FirstDataRow + i, FirstDataRow + i)
    requires forall j :: i + 1 <= j < |rec| ==> RowHolds(r, FirstDataRow + j, rec[j])
    requires AgreeOutside(w, r, FirstDataRow + i + 1, FirstDataRow + |rec| - 1)
    ensures forall j :: i <= j < |rec| ==> RowHolds(r, FirstDataRow + j, rec[j])
    ensures AgreeOutside(ws, r, FirstDataRow + i, FirstDataRow + |rec| - 1)
  {
    RowKept(w, r, FirstDataRow + i + 1, FirstDataRow + |rec| - 1, FirstDataRow + i, rec[i]);
  }

  /** The closing row's cells: the `lastRow` style over whatever value the cell had. */
  predicate ClosingHolds(ws: Sheet, before: Sheet, row: int) {
    && Holds(ws, (row, ParamColumn), Cell(LastRow, ValueAt(before, (row, ParamColumn))))
    && Holds(ws, (row, DescColumn), Cell(LastRow, ValueAt(before, (row, DescColumn))))
    && Holds(ws, (row, ResultColumn), Cell(LastRow, ValueAt(before, (row, ResultColumn))))
  }

  /** The closing loop: only the style of the three cells is set. */
  function CloseBlock(ws: Sheet, row: int): (r: Sheet)
    ensures ClosingHolds(r, ws, row)
    ensures AgreeOutside(ws, r, row, row)
  {
    ws[(row, ParamColumn) := Cell(LastRow, ValueAt(ws, (row, ParamColumn)))]
      [(row, DescColumn) := Cell(LastRow, ValueAt(ws, (row, DescColumn)))]
      [(row, ResultColumn) := Cell(LastRow, ValueAt(ws, (row, ResultColumn)))]
  }

  /** `generateXLSXReport(ws, rec)`: the header at row 2, entry `i` at row `3 + i` in insertion
      order, the closing row right below the last entry at row `|rec| + 3`, and no cell
      touched outside rows 2 to `|rec| + 3` of columns 2 to 4. */
  function Render(ws: Sheet, rec: Record): (r: Sheet)
    ensures HeaderHolds(r)
    ensures forall i :: 0 <= i < |rec| ==> RowHolds(r, FirstDataRow + i, rec[i])
    ensures ClosingHolds(r, ws, |rec| + 3)
    ensures AgreeOutside(ws, r, HeaderRowIndex, |rec| + 3)
  {
    var last := |rec| + 3;
    var h := WriteHeader(ws);
    var b := WriteRows(h, rec, 0);
    var r := CloseBlock(b, last);
    Assemble(ws, h, b, r, rec);
    r
  }

  /** The three loops of the report, put together. */
  lemma Assemble(ws: Sheet, h: Sheet, b: Sheet, r: Sheet, rec: Record)
    requires HeaderHolds(h) && AgreeOutside(ws, h, HeaderRowIndex, HeaderRowIndex)
    requires forall j :: 0 <= j < |rec| ==> RowHolds(b, FirstDataRow + j, rec[j])
    requires AgreeOutside(h, b, FirstDataRow, FirstDataRow + |rec| - 1)
    requires ClosingHolds(r, b, |rec| + 3) && AgreeOutside(b, r, |rec| + 3, |rec| + 3)
    ensures HeaderHolds(r)
    ensures forall i :: 0 <= i < |rec| ==> RowHolds(r, FirstDataRow + i, rec[i])
    ensures ClosingHolds(r, ws, |rec| + 3)
    ensures AgreeOutside(ws, r, HeaderRowIndex, |rec| + 3)
  {
    var last := |rec| + 3;
    AgreeOutsideTrans(ws, h, b, 2, 2, 3, last - 1, 2, last);
    AgreeOutsideTrans(ws, b, r, 2, last - 1, last, last, 2, last);
    HeaderKept(h, b, 3, last - 1);
    HeaderKept(b, r, last, last);
    forall i | 0 <= i < |rec|
      ensures RowHolds(r, FirstDataRow + i, rec[i])
    {
      RowKept(b, r, last, last, FirstDataRow + i, rec[i]);
    }
    ValueKept(ws, b, 2, last - 1, (last, ParamColumn));
    ValueKept(ws, b, 2, last - 1, (last, DescColumn));
    ValueKept(ws, b, 2, last - 1, (last, ResultColumn));
  }

  lemma AgreeOutsideTrans(a: Sheet, b: Sheet, c: Sheet, lo1: int, hi1: int, lo2: int, hi2: int, lo: int, hi: int)
    requires AgreeOutside(a, b, lo1, hi1) && AgreeOutside(b, c, lo2, hi2)
    requires lo <= lo1 && hi1 <= hi && lo <= lo2 && hi2 <= hi
    ensures AgreeOutside(a, c, lo, hi)
  {
  }

  lemma RowKept(a: Sheet, b: Sheet, lo: int, hi: int, row: int, entry: (string, Option<string>))
    requires AgreeOutside(a, b, lo, hi) && !(lo <= row <= hi) && RowHolds(a, row, entry)
    ensures RowHolds(b, row, entry)
  {
    assert InColumns((row, ParamColumn)) && InColumns((row, DescColumn)) && InColumns((row, ResultColumn));
  }

  lemma HeaderKept(a: Sheet, b: Sheet, lo: int, hi: int)
    requires AgreeOutside(a, b, lo, hi) && HeaderRowIndex < lo && HeaderHolds(a)
    ensures HeaderHolds(b)
  {
    assert (HeaderRowIndex, ParamColumn) in a && (HeaderRowIndex, DescColumn) in a;
    assert (HeaderRowIndex, ResultColumn) in a;
  }

  lemma ValueKept(a: Sheet, b: Sheet, lo: int, hi: int, p: (int, int))
    requires AgreeOutside(a, b, lo, hi) && !(lo <= p.0 <= hi)
    ensures ValueAt(a, p) == ValueAt(b, p)
  {
  }

  // ---------------------------------------------------------------------------
  // Properties of the report
  // ---------------------------------------------------------------------------

  /** The rotation field is described by its value: the four known angles get their own
      sentence, and anything else, `None` included, gets the placeholder. */
  lemma RotationDescribedByValue(value: Option<string>)
    ensures value.Some? && value.value in RotationDescriptions ==>
      Description(RotationKey, value) == RotationDescriptions[value.value]
    ensures Description(RotationKey, value) == NotAvailable <==>
      !(value.Some? && value.value in {"0", "90", "180", "270"})
  {
  }

  /** Every other field is described by its name alone; its value plays no part. The six display
      fields have their own sentence, and any other name gets the placeholder. That includes
      `<UNKNOWN_KEY>`, whose table entry only repeats the placeholder text. */
  lemma FieldDescribedByKey(key: string, value: Option<string>)
    requires key != RotationKey
    ensures Description(key, value) == Description(key, None)
    ensures key in DisplayKeys ==>
      Description(key, value) == ParamDescriptions[key] && Description(key, value) != NotAvailable
    ensures key !in DisplayKeys ==> Description(key, value) == NotAvailable
  {
  }

  /** A Results cell never holds `[`, `'` or `]`, and a value without them is written as is. */
  lemma ResultTextClean(value: Option<string>)
    ensures forall k :: 0 <= k < |ResultText(value)| ==> ResultText(value)[k] !in StrayChars
    ensures value.Some? && (forall k :: 0 <= k < |value.value| ==> value.value[k] !in StrayChars)
      ==> ResultText(value) == value.value
  {
    if value.Some? {
      RemoveCharsFixpoint(value.value, StrayChars);
    }
  }

  /** Rows 2 to `|rec| + 3` of columns 2 to 4: the block the report writes. */
  predicate InBlock(p: (int, int), rec: Record) {
    HeaderRowIndex <= p.0 <= |rec| + 3 && InColumns(p)
  }

  /** Reference description of the block, cell by cell: what the report leaves at `p`. */
  function BlockCell(ws: Sheet, rec: Record, p: (int, int)): Cell
    requires InBlock(p, rec)
  {
    if p.0 == HeaderRowIndex then Cell(HeaderRow, Some(Headers[p.1 - ParamColumn]))
    else if p.0 < |rec| + 3 then
      var entry := rec[p.0 - FirstDataRow];
      if p.1 == ParamColumn then Cell(NormalRow, Some(entry.0))
      else if p.1 == DescColumn then Cell(NormalRow, Some(Description(entry.0, entry.1)))
      else Cell(NormalRow, Some(ResultText(entry.1)))
    else Cell(LastRow, ValueAt(ws, p))
  }

  /** The report agrees with the cell-by-cell description everywhere in its block. */
  lemma RenderCell(ws: Sheet, rec: Record, p: (int, int))
    requires InBlock(p, rec)
    ensures p in Render(ws, rec) && Render(ws, rec)[p] == BlockCell(ws, rec, p)
  {
    BlockCellOf(Render(ws, rec), ws, rec, p);
  }

  lemma BlockCellOf(r: Sheet, ws: Sheet, rec: Record, p: (int, int))
    requires InBlock(p, rec) && HeaderHolds(r) && ClosingHolds(r, ws, |rec| + 3)
    requires forall i :: 0 <= i < |rec| ==> RowHolds(r, FirstDataRow + i, rec[i])
    ensures p in r && r[p] == BlockCell(ws, rec, p)
  {
    if p.0 == HeaderRowIndex {
      HeaderCell(r, p);
    } else if p.0 < |rec| + 3 {
      var i := p.0 - FirstDataRow;
      RowCell(r, FirstDataRow + i, rec[i], p);
    } else {
      ClosingCell(r, ws, |rec| + 3, p);
    }
  }

  lemma HeaderCell(r: Sheet, p: (int, int))
    requires HeaderHolds(r) && p.0 == HeaderRowIndex && InColumns(p)
    ensures p in r && r[p] == Cell(HeaderRow, Some(Headers[p.1 - ParamColumn]))
  {
    assert p == (HeaderRowIndex, ParamColumn) || p == (HeaderRowIndex, DescColumn)
      || p == (HeaderRowIndex, ResultColumn);
  }

  lemma RowCell(r: Sheet, row: int, entry: (string, Option<string>), p: (int, int))
    requires RowHolds(r, row, entry) && p.0 == row && InColumns(p)
    ensures p in r
    ensures p.1 == ParamColumn ==> r[p] == Cell(NormalRow, Some(entry.0))
    ensures p.1 == DescColumn ==> r[p] == Cell(NormalRow, Some(Description(entry.0, entry.1)))
    ensures p.1 == ResultColumn ==> r[p] == Cell(NormalRow, Some(ResultText(entry.1)))
  {
    assert p == (row, ParamColumn) || p == (row, DescColumn) || p == (row, ResultColumn);
  }

  lemma ClosingCell(r: Sheet, ws: Sheet, row: int, p: (int, int))
    requires ClosingHolds(r, ws, row) && p.0 == row && InColumns(p)
    ensures p in r && r[p] == Cell(LastRow, ValueAt(ws, p))
  {
    assert p == (row, ParamColumn) || p == (row, DescColumn) || p == (row, ResultColumn);
  }

  /** Two sheets that agree inside the block and outside it are the same sheet. */
  lemma SheetsEqual(a: Sheet, b: Sheet, rec: Record)
    requires forall p: (int, int) :: InBlock(p, rec) ==> p in a && p in b && a[p] == b[p]
    requires AgreeOutside(a, b, HeaderRowIndex, |rec| + 3)
    ensures a == b
  {
    assert a.Keys == b.Keys;
  }

  /** Rendering the same record again onto the rendered sheet changes nothing. */
  lemma RenderIdempotent(ws: Sheet, rec: Record)
    ensures Render(Render(ws, rec), rec) == Render(ws, rec)
  {
    var r1 := Render(ws, rec);
    var r2 := Render(r1, rec);
    forall p: (int, int) | InBlock(p, rec)
      ensures p in r2 && p in r1 && r2[p] == r1[p]
    {
      RenderCell(ws, rec, p);
      RenderCell(r1, rec, p);
    }
    SheetsEqual(r2, r1, rec);
  }

  /** On a fresh sheet the report creates exactly the cells of its block, and the closing
      row carries no value. */
  lemma RenderFreshSheet(rec: Record)
    ensures forall p: (int, int) :: p in Render(map[], rec) <==> InBlock(p, rec)
    ensures ClosingHolds(Render(map[], rec), map[], |rec| + 3)
    ensures Render(map[], rec)[(|rec| + 3, ParamColumn)].value.None?
    ensures Render(map[], rec)[(|rec| + 3, DescColumn)].value.None?
    ensures Render(map[], rec)[(|rec| + 3, ResultColumn)].value.None?
  {
    forall p: (int, int) | InBlock(p, rec)
      ensures p in Render(map[], rec)
    {
      RenderCell(map[], rec, p);
    }
  }

}

=== FILE: scenario.dfy ===
/** The Display collector and its report together, and the worked example of a device that
    answers every query: density 600, size 1080x2280, refresh rate 60.0, brightness 120,
    timeout 15000, rotation 0. */
module Scenario {

  import opened Options
  import opened Text
  import opened Patterns
  import opened Records
  import opened DisplaySpecs
  import opened Report

  /** The Display sheet: six data rows in query order at rows 3 to 8, the rotation row
      described by its value, and the closing row at row 9, whatever the device answered. */
  lemma DisplayReportLayout(ws: Sheet, out: DeviceOutputs)
    ensures var r := Render(ws, GrepInfo(out));
      && HeaderHolds(r)
      && (forall i :: 0 <= i < 6 ==> Holds(r, (FirstDataRow + i, ParamColumn), Cell(NormalRow, Some(DisplayKeys[i]))))
      && Holds(r, (8, DescColumn), Cell(NormalRow, Some(Description(RotationKey, GetScreenRotation(out.rotation)))))
      && ClosingHolds(r, ws, 9)
      && AgreeOutside(ws, r, HeaderRowIndex, 9)
  {
    var rec := GrepInfo(out);
    var r := Render(ws, rec);
    forall i | 0 <= i < 6
      ensures Holds(r, (FirstDataRow + i, ParamColumn), Cell(NormalRow, Some(DisplayKeys[i])))
    {
      assert RowHolds(r, FirstDataRow + i, rec[i]);
      assert rec[i].0 == Keys(rec)[i];
    }
    assert RowHolds(r, FirstDataRow + 5, rec[5]);
    assert rec[5].0 == Keys(rec)[5];
  }

  /** A device that answers every query in the expected shape: the record holds exactly the
      six answers, in query order. */
  lemma AnsweringDevice(out: DeviceOutputs, densityName: string, density: string,
                        sizeName: string, size: string, indent: string, space: string, rate: string,
                        brightness: string, timeout: string, rotation: string)
    requires forall k :: 0 <= k < |densityName| ==> densityName[k] != ':'
    requires forall k :: 0 <= k < |sizeName| ==> sizeName[k] != ':'
    requires out.density == densityName + ": " + density + "\n"
    requires out.screenSize == sizeName + ": " + size + "\n"
    requires out.refreshRate == indent + PeakKey + space + rate + "\n"
    requires AllSpace(indent) && (space == "" || space == " ")
    requires out.brightness == brightness + "\n"
    requires out.screenOffTimeout == timeout + "\n"
    requires out.rotation == rotation + "\n"
    requires |density| > 0 && !IsSpace(density[0]) && '\n' !in density
    requires |size| > 0 && !IsSpace(size[0]) && '\n' !in size
    requires |rate| > 0 && forall m :: 0 <= m < |rate| ==> IsRateChar(rate[m])
    requires |brightness| > 0 && Trimmed(brightness)
    requires |timeout| > 0 && Trimmed(timeout)
    requires |rotation| > 0 && Trimmed(rotation)
    ensures GrepInfo(out) == [
      (DensityKey, Some(density)), (ScreenSizeKey, Some(size)),
      (BrightnessKey, Some(brightness)), (RefreshRateKey, Some(rate)),
      (ScreenOffTimeoutKey, Some(timeout)), (RotationKey, Some(rotation))]
  {
    var r := GrepInfo(out);
    assert r[0].1 == Some(density) by {
      ColonValueOfLine(densityName, density, "\n");
    }
    assert r[1].1 == Some(size) by {
      ColonValueOfLine(sizeName, size, "\n");
    }
    assert r[2].1 == Some(brightness) by {
      AnsweredSetting(brightness);
    }
    assert r[3].1 == Some(rate) by {
      AnsweredRate(out.refreshRate, indent, space, rate);
    }
    assert r[4].1 == Some(timeout) by {
      AnsweredSetting(timeout);
    }
    assert r[5].1 == Some(rotation) by {
      AnsweredSetting(rotation);
    }
    SixFields(r, Some(density), Some(size), Some(brightness), Some(rate), Some(timeout), Some(rotation));
  }

  /** A record over the six display fields is determined by its six values. */
  lemma SixFields(r: Record, a: Option<string>, b: Option<string>, c: Option<string>,
                  d: Option<string>, e: Option<string>, f: Option<string>)
    requires Keys(r) == DisplayKeys
    requires r[0].1 == a && r[1].1 == b && r[2].1 == c
    requires r[3].1 == d && r[4].1 == e && r[5].1 == f
    ensures r == [(DensityKey, a), (ScreenSizeKey, b), (BrightnessKey, c),
                  (RefreshRateKey, d), (ScreenOffTimeoutKey, e), (RotationKey, f)]
  {
    var x := [(DensityKey, a), (ScreenSizeKey, b), (BrightnessKey, c),
              (RefreshRateKey, d), (ScreenOffTimeoutKey, e), (RotationKey, f)];
    assert r[0].0 == Keys(r)[0] && r[1].0 == Keys(r)[1] && r[2].0 == Keys(r)[2];
    assert r[3].0 == Keys(r)[3] && r[4].0 == Keys(r)[4] && r[5].0 == Keys(r)[5];
    forall i | 0 <= i < 6
      ensures r[i] == x[i]
    {
      assert i == 0 || i == 1 || i == 2 || i == 3 || i == 4 || i == 5;
    }
  }

  /** The `dumpsys` line for the peak refresh rate, possibly indented: stripped, it yields the
      number. */
  lemma AnsweredRate(line: string, indent: string, space: string, rate: string)
    requires line == indent + PeakKey + space + rate + "\n"
    requires AllSpace(indent) && (space == "" || space == " ")
    requires |rate| > 0 && forall m :: 0 <= m < |rate| ==> IsRateChar(rate[m])
    ensures GetRefreshRate(line) == Some(rate)
  {
    RateLine(space, rate);
    StrippedRateLine(line, indent, space, rate);
  }

  lemma RateLine(space: string, rate: string)
    requires space == "" || space == " "
    requires |rate| > 0 && forall m :: 0 <= m < |rate| ==> IsRateChar(rate[m])
    ensures RateValue(PeakKey + space + rate) == Some(rate)
  {
    RateValueOfLine([], space, rate, []);
    assert [] + PeakKey + space + rate + [] == PeakKey + space + rate;
  }

  lemma StrippedRateLine(line: string, indent: string, space: string, rate: string)
    requires line == indent + PeakKey + space + rate + "\n" && AllSpace(indent)
    requires |rate| > 0 && IsRateChar(rate[|rate| - 1])
    ensures Trim(line) == PeakKey + space + rate
  {
    var core := PeakKey + space + rate;
    assert line == indent + core + "\n";
    assert core[0] == 'm' && core[|core| - 1] == rate[|rate| - 1];
    TrimPadded(indent, core, "\n");
  }

  lemma AnsweredSetting(v: string)
    requires |v| > 0 && Trimmed(v)
    ensures Trim(v + "\n") == v
  {
    assert v + "\n" == [] + v + "\n";
    TrimPadded([], v, "\n");
  }

  /** The worked example: density 600, size 1080x2280, refresh rate 60.0, brightness 120,
      timeout 15000, rotation 0. The rotation row reads the portrait sentence, the brightness
      result reads 120, and the closing row sits at row 9. */
  lemma SampleReport(out: DeviceOutputs)
    requires out.density == "Physical density" + ": " + "600" + "\n"
    requires out.screenSize == "Physical size" + ": " + "1080x2280" + "\n"
    requires out.refreshRate == "  " + PeakKey + " " + "60.0" + "\n"
    requires out.brightness == "120" + "\n"
    requires out.screenOffTimeout == "15000" + "\n"
    requires out.rotation == "0" + "\n"
    ensures GrepInfo(out)[5] == (RotationKey, Some("0"))
    ensures Holds(Render(map[], GrepInfo(out)), (8, DescColumn),
      Cell(NormalRow, Some("The screen is in its default portrait orientation.")))
    ensures Holds(Render(map[], GrepInfo(out)), (5, ResultColumn), Cell(NormalRow, Some("120")))
    ensures Holds(Render(map[], GrepInfo(out)), (9, ParamColumn), Cell(LastRow, None))
  {
    AnsweringDevice(out, "Physical density", "600", "Physical size", "1080x2280", "  ", " ", "60.0", "120", "15000", "0");
    var rec := GrepInfo(out);
    PortraitRow(rec);
    BrightnessResult(rec);
  }

  lemma PortraitRow(rec: Record)
    requires |rec| == 6 && rec[5] == (RotationKey, Some("0"))
    ensures Holds(Render(map[], rec), (8, DescColumn),
      Cell(NormalRow, Some("The screen is in its default portrait orientation.")))
  {
    assert RowHolds(Render(map[], rec), FirstDataRow + 5, rec[5]);
    RotationDescribedByValue(Some("0"));
  }

  lemma BrightnessResult(rec: Record)
    requires |rec| == 6 && rec[2] == (BrightnessKey, Some("120"))
    ensures Holds(Render(map[], rec), (5, ResultColumn), Cell(NormalRow, Some("120")))
  {
    assert RowHolds(Render(map[], rec), FirstDataRow + 2, rec[2]);
    PlainResult("120");
  }

  lemma PlainResult(v: string)
    requires forall k :: 0 <= k < |v| ==> v[k] != '[' && v[k] != '\'' && v[k] != ']'
    ensures ResultText(Some(v)) == v
  {
    ResultTextClean(Some(v));
  }

}

=== FILE: text.dfy ===
/** Character classes and the two string clean-ups the Display collector relies on:
    Python's `str.strip()` and the `replaceChars` helper that drops listed characters. */
module Text {

  /** Python's whitespace set (`Py_UNICODE_ISSPACE`), shared by `str.strip()` and the
      `\s` class of `re` on str patterns. */
  predicate IsSpace(c: char) {
    var n := c as int;
    || (9 <= n <= 13) || (28 <= n <= 32) || n == 0x85 || n == 0xA0 || n == 0x1680
    || (0x2000 <= n <= 0x200A) || n == 0x2028 || n == 0x2029 || n == 0x202F
    || n == 0x205F || n == 0x3000
  }

  predicate AllSpace(s: string) {
    forall k :: 0 <= k < |s| ==> IsSpace(s[k])
  }

  /** No whitespace at either end. */
  predicate Trimmed(s: string) {
    |s| == 0 || (!IsSpace(s[0]) && !IsSpace(s[|s| - 1]))
  }

  /** `r` is `s[i..j]`, everything cut away is whitespace, and `r` keeps none at its ends. */
  predicate TrimAt(s: string, r: string, i: int, j: int) {
    && 0 <= i <= j <= |s|
    && r == s[i..j]
    && AllSpace(s[..i])
    && AllSpace(s[j..])
    && Trimmed(r)
  }

  /** Declarative meaning of `s.strip()`. */
  ghost predicate IsTrimOf(s: string, r: string) {
    exists i, j :: TrimAt(s, r, i, j)
  }

  function TrimLeft(s: string): (r: string)
    ensures |r| <= |s| && r == s[|s| - |r|..]
    ensures AllSpace(s[..|s| - |r|])
    ensures |r| == 0 || !IsSpace(r[0])
    decreases |s|
  {
    if |s| > 0 && IsSpace(s[0]) then
      var r := TrimLeft(s[1..]);
      TrimLeftStep(s, r);
      r
    else s
  }

  lemma TrimLeftStep(s: string, r: string)
    requires |s| > 0 && IsSpace(s[0])
    requires |r| <= |s| - 1 && r == s[1..][|s| - 1 - |r|..] && AllSpace(s[1..][..|s| - 1 - |r|])
    ensures r == s[|s| - |r|..] && AllSpace(s[..|s| - |r|])
  {
    assert s[1..][|s| - 1 - |r|..] == s[|s| - |r|..];
    forall k | 0 < k < |s| - |r|
      ensures IsSpace(s[k])
    {
      assert s[k] == s[1..][..|s| - 1 - |r|][k - 1];
    }
  }

  function TrimRight(s: string): (r: string)
    ensures |r| <= |s| && r == s[..|r|]
    ensures AllSpace(s[|r|..])
    ensures |r| == 0 || !IsSpace(r[|r| - 1])
    decreases |s|
  {
    if |s| > 0 && IsSpace(s[|s| - 1]) then
      var r := TrimRight(s[..|s| - 1]);
      TrimRightStep(s, r);
      r
    else s
  }

  lemma TrimRightStep(s: string, r: string)
    requires |s| > 0 && IsSpace(s[|s| - 1])
    requires |r| <= |s| - 1 && r == s[..|s| - 1][..|r|] && AllSpace(s[..|s| - 1][|r|..])
    ensures r == s[..|r|] && AllSpace(s[|r|..])
  {
    assert s[..|s| - 1][..|r|] == s[..|r|];
    forall k | 0 <= k < |s| - 1 - |r|
      ensures IsSpace(s[|r|..][k])
    {
      assert s[|r|..][k] == s[..|s| - 1][|r|..][k];
    }
  }

  /** Python's `s.strip()` with no argument. */
  function Trim(s: string): (r: string)
    ensures IsTrimOf(s, r)
  {
    var l := TrimLeft(s);
    var r := TrimRight(l);
    TrimLeftRight(s, l, r);
    r
  }

  lemma TrimLeftRight(s: string, l: string, r: string)
    requires |l| <= |s| && l == s[|s| - |l|..] && AllSpace(s[..|s| - |l|])
    requires |l| == 0 || !IsSpace(l[0])
    requires |r| <= |l| && r == l[..|r|] && AllSpace(l[|r|..])
    requires |r| == 0 || !IsSpace(r[|r| - 1])
    ensures TrimAt(s, r, |s| - |l|, |s| - |l| + |r|)
  {
    var n := |s| - |l|;
    assert r == s[n..n + |r|];
    assert s[n + |r|..] == l[|r|..];
    if |r| > 0 {
      assert r[0] == l[0];
    }
  }

  /** A non-empty strip result starts at the first and ends after the last non-blank character. */
  lemma TrimAtEnds(s: string, r: string, i: int, j: int)
    requires TrimAt(s, r, i, j) && |r| > 0
    ensures forall k :: 0 <= k < i ==> IsSpace(s[k])
    ensures forall k :: j <= k < |s| ==> IsSpace(s[k])
    ensures i < j && !IsSpace(s[i]) && !IsSpace(s[j - 1])
  {
    assert forall k :: 0 <= k < i ==> s[..i][k] == s[k];
    assert forall k :: j <= k < |s| ==> s[j..][k - j] == s[k];
    assert s[i] == r[0] && s[j - 1] == r[|r| - 1];
  }

  /** There is only one way to strip a string. */
  lemma TrimAtUnique(s: string, r1: string, i1: int, j1: int, r2: string, i2: int, j2: int)
    requires TrimAt(s, r1, i1, j1) && TrimAt(s, r2, i2, j2)
    ensures r1 == r2
  {
    if |r1| > 0 && |r2| > 0 {
      TrimAtEnds(s, r1, i1, j1);
      TrimAtEnds(s, r2, i2, j2);
      assert i1 == i2 && j1 == j2;
    } else if |r1| > 0 {
      TrimAtEnds(s, r1, i1, j1);
      AllSpaceCovers(s, i2, j2, i1);
    } else if |r2| > 0 {
      TrimAtEnds(s, r2, i2, j2);
      AllSpaceCovers(s, i1, j1, i2);
    }
  }

  /** When `s[i..i]` is the whole non-blank part (`s[..i]` and `s[i..]` blank),
      the point `p` is blank. */
  lemma AllSpaceCovers(s: string, i: int, j: int, p: int)
    requires 0 <= i == j <= |s| && AllSpace(s[..i]) && AllSpace(s[j..])
    requires 0 <= p < |s|
    ensures IsSpace(s[p])
  {
    if p < i { assert s[..i][p] == s[p]; } else { assert s[j..][p - j] == s[p]; }
  }

  lemma IsTrimOfUnique(s: string, r1: string, r2: string)
    requires IsTrimOf(s, r1) && IsTrimOf(s, r2)
    ensures r1 == r2
  {
    var i1, j1 :| TrimAt(s, r1, i1, j1);
    var i2, j2 :| TrimAt(s, r2, i2, j2);
    TrimAtUnique(s, r1, i1, j1, r2, i2, j2);
  }

  /** Stripping a string surrounded only by whitespace gives back the string. */
  lemma TrimPadded(a: string, r: string, b: string)
    requires AllSpace(a) && AllSpace(b) && Trimmed(r)
    ensures Trim(a + r + b) == r
  {
    var s := a + r + b;
    assert s[..|a|] == a && s[|a|..|a| + |r|] == r && s[|a| + |r|..] == b;
    assert TrimAt(s, r, |a|, |a| + |r|);
    IsTrimOfUnique(s, Trim(s), r);
  }

  /** `strip` is idempotent. */
  lemma TrimIdempotent(s: string)
    ensures Trim(Trim(s)) == Trim(s)
  {
    var r := Trim(s);
    assert Trimmed(r) by {
      var i, j :| TrimAt(s, r, i, j);
    }
    assert r == [] + r + [];
    TrimPadded([], r, []);
  }

  /** The assumed behaviour of the `replaceChars` file-system helper: every occurrence of
      each listed character is removed, everything else is kept in order. */
  function RemoveChars(s: string, cs: seq<char>): (r: string)
    ensures forall k :: 0 <= k < |r| ==> r[k] !in cs
    ensures |r| <= |s|
  {
    if |s| == 0 then []
    else (if s[0] in cs then [] else [s[0]]) + RemoveChars(s[1..], cs)
  }

  /** Removal works character by character: it distributes over concatenation. */
  lemma {:induction false} RemoveCharsAppend(a: string, b: string, cs: seq<char>)
    ensures RemoveChars(a + b, cs) == RemoveChars(a, cs) + RemoveChars(b, cs)
    decreases |a|
  {
    if |a| == 0 {
      assert a + b == b;
    } else {
      assert (a + b)[0] == a[0] && (a + b)[1..] == a[1..] + b;
      RemoveCharsAppend(a[1..], b, cs);
    }
  }

  /** A string free of the listed characters comes back unchanged, and only such a string does. */
  lemma {:induction false} RemoveCharsFixpoint(s: string, cs: seq<char>)
    ensures RemoveChars(s, cs) == s <==> forall k :: 0 <= k < |s| ==> s[k] !in cs
    decreases |s|
  {
    if |s| > 0 {
      RemoveCharsFixpoint(s[1..], cs);
      if s[0] in cs {
        assert |RemoveChars(s, cs)| < |s|;
      }
    }
  }

  /** Each character that is not listed keeps its number of occurrences; listed ones vanish. */
  lemma {:induction false} RemoveCharsCounts(s: string, cs: seq<char>)
    ensures forall c :: multiset(RemoveChars(s, cs))[c] == if c in cs then 0 else multiset(s)[c]
    decreases |s|
  {
    if |s| > 0 {
      RemoveCharsCounts(s[1..], cs);
      assert s == [s[0]] + s[1..];
      assert multiset(s) == multiset([s[0]]) + multiset(s[1..]);
      var head := if s[0] in cs then [] else [s[0]];
      assert multiset(RemoveChars(s, cs)) == multiset(head) + multiset(RemoveChars(s[1..], cs));
    }
  }

  /** Applying the removal twice is the same as once. */
  lemma RemoveCharsIdempotent(s: string, cs: seq<char>)
    ensures RemoveChars(RemoveChars(s, cs), cs) == RemoveChars(s, cs)
  {
    RemoveCharsFixpoint(RemoveChars(s, cs), cs);
  }

}
